=== FILE: README.md ===
# Particle network, contact form and AI proxy — a Dafny model

This project models the three pieces of logic of a marketing site:

- **The particle-network background** (`components/ParticlesBackground.tsx`).
  At mount the component measures the window. It picks a density tier from the width: below 768 px it uses 35 particles and a 140 px link distance, otherwise 85 and 190.
  It seeds the particles from `Math.random()` and draws frames forever.
  In each frame the loop takes the particles in order: it moves particle i by its velocity, wraps it at the edges, and then checks it against every later particle, which has not moved yet in this frame.
  A line is drawn when a pair is closer than the link distance. The line's opacity falls linearly with distance.
  A resize changes only the stored window size. Unmounting cancels the pending frame and removes the resize listener.
  Modules `Particles` (records, tier, seeding, wrap, move), `Frame` (the per-frame loop, pair enumeration, opacity) and `Engine` (mount, frame, resize, unmount).
- **The contact form** (`App.tsx`). Submission is refused while name, email or service is empty, and the refusal shows an error map. Otherwise the status becomes `submitting`, the trimmed fields are posted, and the status becomes `success` (the form is cleared and the thank-you modal opens) or `error`. Closing the modal returns to `idle`. Module `ContactForm`.
- **The AI proxy function** (`netlify/functions/ai.js`). It routes on the method, the API key and the body. It builds the `contents` list for the model from the request, then maps the model's outcome to 200 or 502. Module `AiProxy`.

Modelling choices:

- Window sizes are `nat`, because `window.innerWidth` is an integer. Particle coordinates are `real`.
- `Math.random()` is a stream `rand: nat -> real` of draws in [0, 1). Particle i uses draws 5i to 5i+4, in the order x, y, vx, vy, size.
- `Math.sqrt` is a parameter `root: real -> real`. The lemmas that need it assume `IsRoot(root)`: `root(s) >= 0` and `root(s) * root(s) == s`.
- The JSON parser and the model call are parameters that return success or failure. So is the outcome of the form's network send.

On these points the model follows `components/ParticlesBackground.tsx` and `App.tsx` as written:

- **Closed bounds.** After a move, a coordinate lies in the closed range [0, width]. A coordinate below 0 is set to exactly `width` (`Particles.Wrap`).
- **Seeding at mount, whatever the size.** Seeding runs as soon as the component mounts. With width 0 every x is 0.
- **Half-open ranges.** Draws lie in [0, 1), so velocities lie in [-0.175, 0.175) and sizes in [1.2, 2.7).
- **Interleaved frame.** Moving and linking happen in one loop. When the pair (i, j) is checked, particle i has moved this frame and particle j has not (`Frame.DrawFrame`).
- **Status `error` has no edge of its own back to `idle`.** An accepted new submission leaves it; a refused one keeps `error`. So does closing the thank-you modal, if the modal from an earlier success is still open, because closing always sets `idle`.

## Model

| member | source | states |
|---|---|---|
| Particles.SelectTier | components/ParticlesBackground.tsx:21-25 | widths below 768 give 35 particles and link distance 140; widths of 768 and above, 768 included, give 85 and 190 |
| Particles.Scale | components/ParticlesBackground.tsx:29-30 | a draw in [0,1) times an axis length lies in [0, length], and below the length when the length is positive |
| Particles.Spawn | components/ParticlesBackground.tsx:28-34 | given draws in [0,1), a seeded particle has x in [0,width) (exactly 0 when the width is 0), y likewise against the height, vx and vy in [-0.175,0.175) and size in [1.2,2.7) |
| Particles.Seed | components/ParticlesBackground.tsx:27-35 | seeding yields exactly `count` particles, each within the seeding ranges |
| Particles.Wrap | components/ParticlesBackground.tsx:52-55 | after the edge rule a coordinate lies in the closed [0,bound]; below 0 it becomes exactly bound, above bound exactly 0, and otherwise it is unchanged |
| Particles.Move | components/ParticlesBackground.tsx:47-55 | a particle's update changes only x and y, leaves it inside the closed box, and moves it by exactly its velocity when that stays in the box |
| Particles.MoveAll | components/ParticlesBackground.tsx:46-56 | after a frame each particle is its own predecessor moved by its velocity and wrapped; the length, the order, every velocity and every size are kept, and every particle is inside the box |
| Frame.Alpha | components/ParticlesBackground.tsx:70-72 | the opacity times the threshold is 0.35 times the remaining distance to the threshold (a linear falloff) |
| Frame.Evaluate | components/ParticlesBackground.tsx:64-72 | a pair's check records the two particles and the root of their squared distance; a line is drawn iff that distance is below the threshold, with the falloff opacity |
| Frame.AlphaRange | components/ParticlesBackground.tsx:69-72 | for 0 <= d < threshold the opacity lies in (0, 0.35]; it is 0.35 at distance 0 and 0 at the threshold |
| Frame.AlphaDecreasing | components/ParticlesBackground.tsx:70-72 | the opacity is strictly decreasing in the distance |
| Frame.BelowIffSquareBelow | components/ParticlesBackground.tsx:67-69 | for a non-negative distance, being below the threshold is the same as its square being below the squared threshold |
| Frame.LinkRule | components/ParticlesBackground.tsx:64-72 | with a true square root, a line is drawn iff the squared distance is below the squared threshold, and its opacity is then in (0, 0.35] |
| Frame.RowStartClosedForm | components/ParticlesBackground.tsx:46-63 | the pairs before row i number i(2n-1-i)/2, so a frame over n particles checks n(n-1)/2 pairs |
| Frame.DrawFrame | components/ParticlesBackground.tsx:46-79 | the loop's particles end up as one move of each; every unordered pair i<j is checked exactly once, n(n-1)/2 in all, in row order; each check sees particle i after its move and particle j before its move |
| Engine.Mount | components/ParticlesBackground.tsx:8-93 | a missing canvas or context leaves the engine inert; otherwise the tier comes from the mount width, the particles are the seeded ones after one frame's move, the count is the tier's, velocities lie in [-0.175,0.175) and sizes in [1.2,2.7), a frame is pending and the listener registered |
| Engine.Tick | components/ParticlesBackground.tsx:46-81 | a pending frame moves every particle by its velocity and wraps it against the current viewport, and requests exactly one successor; velocities, sizes, tier and viewport are kept; with no pending frame nothing happens |
| Engine.Resize | components/ParticlesBackground.tsx:86-91 | a resize replaces only the width and height; tier and particles stay |
| Engine.Unmount | components/ParticlesBackground.tsx:94-97 | cleanup cancels the pending frame and removes the resize listener, keeping the viewport, the particles, the tier and the frame count |
| Engine.OperationsPreserveConsistency | components/ParticlesBackground.tsx:24-27 | frames, resizes and unmounting keep the particle count equal to the tier's count and the tier one of the two |
| Engine.ResizeKeepsMountTier | components/ParticlesBackground.tsx:21-25 | after any sequence of resizes the tier and the particle count are still those chosen from the width at mount |
| Engine.NoFramesAfterUnmount | components/ParticlesBackground.tsx:94-95 | after unmount no refresh signal draws a frame |
| Engine.RunningDrawsEveryFrame | components/ParticlesBackground.tsx:81-84 | while mounted, n refresh signals draw n frames and the animation stays running |
| Engine.UnmountIdempotent | components/ParticlesBackground.tsx:94-97 | unmounting twice is the same as unmounting once |
| ContactForm.TrimStart | App.tsx:63 | leading whitespace removed: a suffix, the dropped prefix all whitespace, not itself starting with whitespace |
| ContactForm.TrimEnd | App.tsx:63 | trailing whitespace removed: a prefix, the dropped suffix all whitespace, not itself ending with whitespace |
| ContactForm.Trim | App.tsx:63 | the result is a slice of the input with only whitespace cut off before and after it, and it neither starts nor ends with whitespace |
| ContactForm.TrimEmptyIffAllSpace | App.tsx:63 | trimming gives "" exactly for all-whitespace input |
| ContactForm.TrimKeepsTrimmed | App.tsx:63 | a value with no outer whitespace is sent as typed |
| ContactForm.TrimIdempotent | App.tsx:63 | trimming twice is trimming once |
| ContactForm.RequiredErrors | App.tsx:53-57 | the refusal's error map has exactly the keys name, email and service; an empty field maps to 'Required', any other to '' |
| ContactForm.Blocked | App.tsx:52 | submission is blocked iff some required field (name, email, service) is the empty string |
| ContactForm.Payload | App.tsx:62-63 | the payload holds the six fields under their own names, in field order, each trimmed |
| ContactForm.Submit | App.tsx:50-63 | submission is refused iff name, email or service is empty; a refusal sets only the error map; otherwise the status becomes submitting and the trimmed fields are handed to the send |
| ContactForm.Complete | App.tsx:64-70 | a completed send gives success, opens the thank-you modal and clears all six fields; a thrown send gives error and keeps the data; the error map is untouched |
| ContactForm.CloseThankYou | App.tsx:84 | closing the modal hides it and sets the status to idle |
| ContactForm.SubmitDisabled | App.tsx:368 | the button is enabled exactly in the idle, success and error states |
| ContactForm.BorderClass | App.tsx:73-74 | an input's border is red iff its error entry is present and non-empty, grey otherwise |
| ContactForm.RefusedHighlightsEmptyRequired | App.tsx:52-57 | after a refusal a field has the red border iff it is a required field left empty; optional fields never do |
| ContactForm.BlankNameSentEmpty | App.tsx:52-63 | a whitespace-only name passes validation and is sent as "" |
| ContactForm.PayloadIsTrimmed | App.tsx:63 | every value sent is already trimmed, and a sent value is non-empty only if the typed one has a non-whitespace character |
| ContactForm.SuccessfulCycle | App.tsx:60-67 | idle to submitting (button disabled) to success (button enabled, modal open, form cleared) |
| ContactForm.FailedSendAllowsRetry | App.tsx:68-70 | a thrown send keeps what was typed, re-enables the button, and a retry sends the same payload |
| ContactForm.AcceptedSubmitKeepsOldErrors | App.tsx:60-70 | an accepted submission, sent or not, does not clear errors left by an earlier refusal |
| AiProxy.OrElse | netlify/functions/ai.js:74-83 | JavaScript `or` on an optional string: a present non-empty string is kept, an absent or empty one gives the fallback |
| AiProxy.RouteOf | netlify/functions/ai.js:20-44 | OPTIONS goes first; any other non-POST method is refused; a POST without a key is refused before its body is looked at; a POST with a key but no body is refused; only a POST with both proceeds |
| AiProxy.HistoryTurns | netlify/functions/ai.js:57-63 | an array history contributes its entries; any other history contributes none |
| AiProxy.ChatParts | netlify/functions/ai.js:65-77 | with an image: two parts, inline data first, then the message or "Analyze this image."; without: one text part, the message or "" |
| AiProxy.BuildContents | netlify/functions/ai.js:55-85 | in chat mode, the history turns in order projected to role and parts, then exactly one user turn; otherwise exactly one user turn with the prompt or "Hello" |
| AiProxy.Handle | netlify/functions/ai.js:8-117 | every response has the same headers and a status among 200, 400, 405, 500, 502; OPTIONS gives 200 "OK"; the routing codes; a POST with key and body gives 200 with the generated text or "" when parse and generation succeed, and 502 with "Backend Error: " and the message when either fails; conversely a 200 with a text body arises only that way |
| AiProxy.RequestFor | netlify/functions/ai.js:90-98 | the model request uses the fixed model name, the built contents, the request's system instruction, 1000 output tokens and temperature 0.7 |
| AiProxy.PreflightIgnoresEverythingElse | netlify/functions/ai.js:20-22 | the preflight response is the same whatever the key, body, parser and model |
| AiProxy.KeyCheckedBeforeBody | netlify/functions/ai.js:33-44 | without a key every POST gets the same 500 response, whatever its body |
| AiProxy.SuccessIff | netlify/functions/ai.js:101-115 | status 200 iff preflight or a fully successful POST; status 502 iff a POST with key and body whose parse or generation fails |
| AiProxy.HistoryUsedIffArray | netlify/functions/ai.js:57-63 | in chat mode the history adds turns iff it is a non-empty array; a non-array history is ignored |
| AiProxy.ProjectionDropsExtraMembers | netlify/functions/ai.js:59-62 | members of a history turn other than role and parts never reach the model |
| AiProxy.LastTurnIsUser | netlify/functions/ai.js:78-84 | the last turn is always a user turn, and outside chat mode it is the only one |

## Left out

- Canvas painting (background fill, dots, colours, line width, stroke calls). A drawn line is the `alpha` of a `Frame.Check`. The dots sit at the moved positions that `Frame.DrawFrame` returns.
- `requestAnimationFrame` and `cancelAnimationFrame` timing. Only a pending-frame flag is kept in `Engine.Engine`.
- Engine.Tick: models the particle state of a frame only. The checks and lines of the same frame are given by `Frame.DrawFrame`, which is a method and cannot be called from a function.
- Frame.DrawFrame: computes distances with an arbitrary `root` parameter in place of `Math.sqrt`. The square-root facts are stated under `IsRoot` in `Frame.LinkRule`. IEEE-754 rounding is not modelled; coordinates are exact reals.
- Field edits through the inputs' `onChange` handlers. The form data is an input to `ContactForm.Submit`. The edits can happen while a send is pending, so `ContactForm.Complete` takes whatever form is current.
- The network send of the form (`fetch` with `no-cors`). It is reduced to "completed" or "threw".
- JavaScript truthiness for non-string values: a non-string `message` or `prompt` is not modelled.
- History entries that are not objects. A `null` entry makes `history.map` throw, which the handler answers with 502. A number, string or boolean entry is sent on as a turn with undefined role and parts. Neither case is modelled; every entry is a `HistoryEntry`.
- Request members of unexpected shape. A truthy `image` that is not an object is sent as an inline-data part with undefined `mimeType` and `data`. A history object without `role` or `parts` is forwarded with those members undefined. Both inputs are outside the model: `image` is an `Option<Image>` and every history entry has a role and parts.
- The Gemini SDK and the internals of `JSON.parse`. Each is an opaque parameter returning success or failure. A JSON body that parses to `null` would make the destructuring throw; it counts as a parse failure.
- `process.env`: the API key is the `Option<string>` parameter `apiKey` of `AiProxy.Handle`.
- `console.log` and `console.error`: logging has no effect on the response and is not modelled.
- The scroll listener, `smoothScrollTo`, navigation, modals other than the thank-you flag, and all markup and styling except the red-border test.
- `components/Logo.tsx`: a static image with no logic.

=== FILE: ai_proxy.dfy ===
/** The serverless AI proxy (netlify/functions/ai.js): method, key and body
    routing, the construction of the `contents` list sent to the model, and
    the mapping of the outcome to an HTTP response. The JSON parser and the
    model call are passed in as opaque operations that may fail. */
module AiProxy {
  import opened Wrappers

  /** The CORS and content-type headers every response carries. */
  const CorsHeaders: map<string, string> := map[
    "Access-Control-Allow-Origin" := "*",
    "Access-Control-Allow-Headers" := "Content-Type",
    "Access-Control-Allow-Methods" := "POST, OPTIONS",
    "Content-Type" := "application/json"]

  const ModelName: string := "gemini-3-flash-preview"
  const MaxOutputTokens: nat := 1000
  const Temperature: real := 0.7

  /** A response body: the literal "OK" of the preflight, or a JSON object
      with an `error` or a `text` member. */
  datatype Body = PlainOk | ErrorJson(error: string) | TextJson(text: string)

  datatype Response = Response(statusCode: nat, headers: map<string, string>, body: Body)

  /** The incoming event; an absent body is None. */
  datatype Event = Event(httpMethod: string, body: Option<string>)

  datatype Part = Text(text: string) | InlineData(mimeType: string, data: string)

  /** One turn of the conversation as the model receives it. */
  datatype Content = Content(role: string, parts: seq<Part>)

  /** One turn of client-supplied history; `extra` holds any other members
      the client sent, which the proxy drops. */
  datatype HistoryEntry = HistoryEntry(role: string, parts: seq<Part>, extra: map<string, string>)

  /** The `history` member: absent, present but not an array, or an array. */
  datatype History = Absent | NotArray | ArrayOf(entries: seq<HistoryEntry>)

  datatype Image = Image(mimeType: string, data: string)

  /** The parsed request body. */
  datatype Request = Request(endpointType: Option<string>, systemInstruction: Option<string>,
                             prompt: Option<string>, history: History,
                             message: Option<string>, image: Option<Image>)

  /** Outcome of JSON.parse on the body. */
  datatype Parsed = ParseOk(request: Request) | ParseFailed(message: string)

  /** What is sent to the model. */
  datatype Generate = Generate(model: string, contents: seq<Content>, systemInstruction: Option<string>,
                               maxOutputTokens: nat, temperature: real)

  /** Outcome of the model call: the response's text (possibly absent), or a thrown error. */
  datatype Generation = Generated(text: Option<string>) | Failed(message: string)

  /** JavaScript's `v || fallback` on an optional string: absent and "" are falsy. */
  function OrElse(v: Option<string>, fallback: string): (r: string)
    ensures v.Some? && v.value != "" ==> r == v.value
    ensures v.None? || v.value == "" ==> r == fallback
  {
    if v.Some? && v.value != "" then v.value else fallback
  }

  /** The first checks of the handler, in order. */
  datatype Route = Preflight | MethodNotAllowed | MissingKey | MissingBody | Proceed

  /** Picks the route from the method and whether a key and a body are
      present (non-empty). */
  function RouteOf(httpMethod: string, hasKey: bool, hasBody: bool): (r: Route)
    ensures r == Preflight <==> httpMethod == "OPTIONS"
    ensures r == MethodNotAllowed <==> httpMethod != "OPTIONS" && httpMethod != "POST"
    ensures r == MissingKey <==> httpMethod == "POST" && !hasKey
    ensures r == MissingBody <==> httpMethod == "POST" && hasKey && !hasBody
    ensures r == Proceed <==> httpMethod == "POST" && hasKey && hasBody
  {
    if httpMethod == "OPTIONS" then Preflight
    else if httpMethod != "POST" then MethodNotAllowed
    else if !hasKey then MissingKey
    else if !hasBody then MissingBody
    else Proceed
  }

  predicate Present(v: Option<string>)
  {
    v.Some? && v.value != ""
  }

  /** The history turns the chat mode keeps: the array's entries, or none. */
  function HistoryTurns(h: History): (turns: seq<HistoryEntry>)
    ensures h.ArrayOf? ==> turns == h.entries
    ensures !h.ArrayOf? ==> turns == []
  {
    if h.ArrayOf? then h.entries else []
  }

  /** The parts of the new user turn in chat mode. */
  function ChatParts(message: Option<string>, image: Option<Image>): (parts: seq<Part>)
    ensures image.Some? ==>
      |parts| == 2
      && parts[0] == InlineData(image.value.mimeType, image.value.data)
      && parts[1] == Text(OrElse(message, "Analyze this image."))
    ensures image.None? ==> parts == [Text(OrElse(message, ""))]
  {
    match image
    case Some(img) => [InlineData(img.mimeType, img.data), Text(OrElse(message, "Analyze this image."))]
    case None => [Text(OrElse(message, ""))]
  }

  predicate IsChat(r: Request)
  {
    r.endpointType == Some("chat")
  }

  /** The `contents` list built from a request. */
  function BuildContents(r: Request): (contents: seq<Content>)
    ensures IsChat(r) ==>
      var turns := HistoryTurns(r.history);
      && |contents| == |turns| + 1
      && (forall k :: 0 <= k < |turns| ==> contents[k] == Content(turns[k].role, turns[k].parts))
      && contents[|turns|] == Content("user", ChatParts(r.message, r.image))
    ensures !IsChat(r) ==> contents == [Content("user", [Text(OrElse(r.prompt, "Hello"))])]
  {
    if IsChat(r) then
      var turns := HistoryTurns(r.history);
      seq(|turns|, k requires 0 <= k < |turns| => Content(turns[k].role, turns[k].parts))
        + [Content("user", ChatParts(r.message, r.image))]
    else
      [Content("user", [Text(OrElse(r.prompt, "Hello"))])]
  }

  /** The handler. `apiKey` is the API_KEY environment variable, `parse` is
      JSON.parse and `generate` is the model call. */
  function Handle(event: Event, apiKey: Option<string>,
                  parse: string -> Parsed, generate: Generate -> Generation): (resp: Response)
    ensures resp.headers == CorsHeaders
    ensures resp.statusCode in {200, 400, 405, 500, 502}
    ensures event.httpMethod == "OPTIONS" ==> resp == Response(200, CorsHeaders, PlainOk)
    ensures event.httpMethod != "OPTIONS" && event.httpMethod != "POST" ==> resp.statusCode == 405
    ensures event.httpMethod == "POST" && !Present(apiKey) ==> resp.statusCode == 500
    ensures event.httpMethod == "POST" && Present(apiKey) && !Present(event.body) ==> resp.statusCode == 400
    ensures resp.statusCode == 200 && resp.body != PlainOk ==>
      && event.httpMethod == "POST" && Present(apiKey) && Present(event.body)
      && parse(event.body.value).ParseOk?
      && generate(RequestFor(parse(event.body.value).request)).Generated?
      && resp.body == TextJson(OrElse(generate(RequestFor(parse(event.body.value).request)).text, ""))
    ensures event.httpMethod == "POST" && Present(apiKey) && Present(event.body) ==>
      match parse(event.body.value)
      case ParseFailed(msg) => resp == Response(502, CorsHeaders, ErrorJson("Backend Error: " + msg))
      case ParseOk(req) =>
        match generate(RequestFor(req))
        case Failed(msg) => resp == Response(502, CorsHeaders, ErrorJson("Backend Error: " + msg))
        case Generated(text) => resp == Response(200, CorsHeaders, TextJson(OrElse(text, "")))
  {
    match RouteOf(event.httpMethod, Present(apiKey), Present(event.body))
    case Preflight => Response(200, CorsHeaders, PlainOk)
    case MethodNotAllowed => Response(405, CorsHeaders, ErrorJson("Method Not Allowed"))
    case MissingKey =>
      Response(500, CorsHeaders, ErrorJson("Server Configuration Error: API Key missing in Netlify settings."))
    case MissingBody => Response(400, CorsHeaders, ErrorJson("Missing body"))
    case Proceed =>
      match parse(event.body.value)
      case ParseFailed(msg) => Response(502, CorsHeaders, ErrorJson("Backend Error: " + msg))
      case ParseOk(req) =>
        match generate(RequestFor(req))
        case Failed(msg) => Response(502, CorsHeaders, ErrorJson("Backend Error: " + msg))
        case Generated(text) => Response(200, CorsHeaders, TextJson(OrElse(text, "")))
  }

  /** The model request for a parsed body. */
  function RequestFor(r: Request): (g: Generate)
    ensures g.model == ModelName && g.contents == BuildContents(r)
    ensures g.systemInstruction == r.systemInstruction
    ensures g.maxOutputTokens == 1000 && g.temperature == 0.7
  {
    Generate(ModelName, BuildContents(r), r.systemInstruction, MaxOutputTokens, Temperature)
  }

  /** A preflight is answered before anything else is looked at: the key,
      the body and both oracles make no difference. */
  lemma PreflightIgnoresEverythingElse(b1: Option<string>, b2: Option<string>, k1: Option<string>, k2: Option<string>,
                                       p1: string -> Parsed, p2: string -> Parsed,
                                       g1: Generate -> Generation, g2: Generate -> Generation)
    ensures Handle(Event("OPTIONS", b1), k1, p1, g1) == Handle(Event("OPTIONS", b2), k2, p2, g2)
  {
  }

  /** The key is checked before the body: without a key every POST gets the
      same 500 response, whatever its body. */
  lemma KeyCheckedBeforeBody(b1: Option<string>, b2: Option<string>, k: Option<string>,
                             p1: string -> Parsed, p2: string -> Parsed,
                             g1: Generate -> Generation, g2: Generate -> Generation)
    requires !Present(k)
    ensures Handle(Event("POST", b1), k, p1, g1) == Handle(Event("POST", b2), k, p2, g2)
    ensures Handle(Event("POST", b1), k, p1, g1).statusCode == 500
  {
  }

  /** The handler answers 200 exactly for a preflight or for a POST whose
      key and body are present, whose body parses and whose generation
      succeeds; a parse or generation failure is 502. */
  lemma SuccessIff(event: Event, apiKey: Option<string>, parse: string -> Parsed, generate: Generate -> Generation)
    ensures Handle(event, apiKey, parse, generate).statusCode == 200 <==>
      || event.httpMethod == "OPTIONS"
      || (&& event.httpMethod == "POST" && Present(apiKey) && Present(event.body)
          && parse(event.body.value).ParseOk?
          && generate(RequestFor(parse(event.body.value).request)).Generated?)
    ensures Handle(event, apiKey, parse, generate).statusCode == 502 <==>
      && event.httpMethod == "POST" && Present(apiKey) && Present(event.body)
      && (|| parse(event.body.value).ParseFailed?
          || generate(RequestFor(parse(event.body.value).request)).Failed?)
  {
  }

  /** In chat mode the history contributes turns exactly when it is a
      non-empty array; anything else is ignored. */
  lemma HistoryUsedIffArray(r: Request)
    requires IsChat(r)
    ensures |BuildContents(r)| > 1 <==> r.history.ArrayOf? && |r.history.entries| > 0
    ensures !r.history.ArrayOf? ==> BuildContents(r) == BuildContents(r.(history := ArrayOf([])))
  {
  }

  /** History turns are projected to role and parts: members other than
      those two never reach the model. */
  lemma ProjectionDropsExtraMembers(r: Request, entries: seq<HistoryEntry>)
    requires r.history.ArrayOf? && |entries| == |r.history.entries|
    requires forall k :: 0 <= k < |entries| ==>
      entries[k].role == r.history.entries[k].role && entries[k].parts == r.history.entries[k].parts
    ensures BuildContents(r.(history := ArrayOf(entries))) == BuildContents(r)
  {
  }

  /** The last turn is always a single user turn, and outside chat mode it is
      the only one. */
  lemma LastTurnIsUser(r: Request)
    ensures |BuildContents(r)| >= 1
    ensures BuildContents(r)[|BuildContents(r)| - 1].role == "user"
    ensures !IsChat(r) ==> |BuildContents(r)| == 1
  {
  }
}

=== FILE: contact_form.dfy ===
/** The contact form of the landing page (App.tsx): required-field
    validation, the submit status machine, the trimmed payload, the
    thank-you modal, the disabled submit button and the red error border. */
module ContactForm {

  /** Characters removed by JavaScript's String.prototype.trim: the
      WhiteSpace and LineTerminator code points of ECMAScript. */
  predicate IsJsSpace(c: char)
  {
    var u := c as int;
    || u == 0x09 || u == 0x0A || u == 0x0B || u == 0x0C || u == 0x0D || u == 0x20
    || u == 0xA0 || u == 0x1680 || (0x2000 <= u <= 0x200A)
    || u == 0x2028 || u == 0x2029 || u == 0x202F || u == 0x205F || u == 0x3000 || u == 0xFEFF
  }

  predicate AllSpace(s: string)
  {
    forall k :: 0 <= k < |s| ==> IsJsSpace(s[k])
  }

  /** s without its leading whitespace: a suffix of s whose dropped prefix is
      all whitespace and which does not itself start with whitespace. */
  function TrimStart(s: string): (r: string)
    ensures |r| <= |s| && r == s[|s| - |r|..]
    ensures AllSpace(s[..|s| - |r|])
    ensures |r| > 0 ==> !IsJsSpace(r[0])
  {
    if |s| > 0 && IsJsSpace(s[0]) then TrimStart(s[1..]) else s
  }

  /** s without its trailing whitespace: a prefix of s whose dropped suffix is
      all whitespace and which does not itself end with whitespace. */
  function TrimEnd(s: string): (r: string)
    ensures |r| <= |s| && r == s[..|r|]
    ensures AllSpace(s[|r|..])
    ensures |r| > 0 ==> !IsJsSpace(r[|r| - 1])
  {
    if |s| > 0 && IsJsSpace(s[|s| - 1]) then TrimEnd(s[..|s| - 1]) else s
  }

  /** JavaScript's `trim()`. */
  function Trim(s: string): (r: string)
    ensures exists a, b :: 0 <= a <= b <= |s| && r == s[a..b] && AllSpace(s[..a]) && AllSpace(s[b..])
    ensures |r| > 0 ==> !IsJsSpace(r[0]) && !IsJsSpace(r[|r| - 1])
  {
    var t := TrimStart(s);
    var r := TrimEnd(t);
    var a := |s| - |t|;
    var b := a + |r|;
    assert r == s[a..b];
    assert s[b..] == t[|r|..];
    r
  }

  /** Trimming gives the empty string exactly for all-whitespace input. */
  lemma TrimEmptyIffAllSpace(s: string)
    ensures Trim(s) == "" <==> AllSpace(s)
  {
    var t := TrimStart(s);
    var r := TrimEnd(t);
    var cut := |s| - |t|;
    assert Trim(s) == r;
    if r == "" {
      assert AllSpace(t[0..]);
      assert t == "";
      assert s[..cut] == s;
    } else {
      assert r[0] == t[0] == s[cut];
    }
  }

  /** A string with no whitespace at either end is left as it is. */
  lemma TrimKeepsTrimmed(s: string)
    requires |s| > 0 ==> !IsJsSpace(s[0]) && !IsJsSpace(s[|s| - 1])
    ensures Trim(s) == s
  {
  }

  /** Trimming twice is trimming once. */
  lemma TrimIdempotent(s: string)
    ensures Trim(Trim(s)) == Trim(s)
  {
    TrimKeepsTrimmed(Trim(s));
  }

  datatype Status = Idle | Submitting | Success | Error

  /** The six fields of the form, in declaration order. */
  datatype FormData = FormData(name: string, email: string, phone: string,
                               url: string, service: string, message: string)

  const EmptyData: FormData := FormData("", "", "", "", "", "")

  /** The field names in the order Object.entries lists them. */
  const FieldNames: seq<string> := ["name", "email", "phone", "url", "service", "message"]

  /** The fields that validation requires. */
  const RequiredFields: set<string> := {"name", "email", "service"}

  const RequiredMessage: string := "Required"

  /** The field called `key`, or "" for a name that is not a field. */
  function Field(d: FormData, key: string): string
  {
    if key == "name" then d.name
    else if key == "email" then d.email
    else if key == "phone" then d.phone
    else if key == "url" then d.url
    else if key == "service" then d.service
    else if key == "message" then d.message
    else ""
  }

  /** The component state that the form uses. */
  datatype Form = Form(data: FormData, status: Status, errors: map<string, string>, showThankYou: bool)

  const InitialForm: Form := Form(EmptyData, Idle, map[], false)

  /** Submission is refused when any required field is the empty string. */
  function Blocked(d: FormData): (b: bool)
    ensures b <==> exists key :: key in RequiredFields && Field(d, key) == ""
  {
    d.name == "" || d.email == "" || d.service == ""
  }

  /** The error map a refused submission shows. */
  function RequiredErrors(d: FormData): (errors: map<string, string>)
    ensures errors.Keys == RequiredFields
    ensures forall key :: key in errors ==>
      errors[key] == (if Field(d, key) == "" then RequiredMessage else "")
  {
    map["name" := if d.name == "" then RequiredMessage else "",
        "email" := if d.email == "" then RequiredMessage else "",
        "service" := if d.service == "" then RequiredMessage else ""]
  }

  /** The POST body: every field under its own name, trimmed, in field order. */
  function Payload(d: FormData): (p: seq<(string, string)>)
    ensures |p| == |FieldNames|
    ensures forall k :: 0 <= k < |p| ==> p[k].0 == FieldNames[k] && p[k].1 == Trim(Field(d, FieldNames[k]))
  {
    seq(|FieldNames|, k requires 0 <= k < |FieldNames| => (FieldNames[k], Trim(Field(d, FieldNames[k]))))
  }

  /** What the synchronous part of the submit handler leaves behind: either
      the refused form, or the form in the submitting state together with the
      payload handed to the network. */
  datatype Submission = Refused(form: Form) | Sending(form: Form, payload: seq<(string, string)>)

  /** The submit handler up to the network call. */
  function Submit(f: Form): (r: Submission)
    ensures r.Refused? <==> Blocked(f.data)
    ensures r.Refused? ==>
      && r.form.errors == RequiredErrors(f.data)
      && r.form.data == f.data && r.form.status == f.status && r.form.showThankYou == f.showThankYou
    ensures r.Sending? ==>
      && r.form.status == Submitting
      && r.form.data == f.data && r.form.errors == f.errors && r.form.showThankYou == f.showThankYou
      && r.payload == Payload(f.data)
  {
    if Blocked(f.data) then Refused(f.(errors := RequiredErrors(f.data)))
    else Sending(f.(status := Submitting), Payload(f.data))
  }

  /** The rest of the handler, once the network call has completed (`sent`)
      or thrown. It acts on the state current at that moment. */
  function Complete(f: Form, sent: bool): (f': Form)
    ensures sent ==> f'.status == Success && f'.showThankYou && f'.data == EmptyData
    ensures !sent ==> f'.status == Error && f'.data == f.data && f'.showThankYou == f.showThankYou
    ensures f'.errors == f.errors
  {
    if sent then f.(status := Success, showThankYou := true, data := EmptyData)
    else f.(status := Error)
  }

  /** Closing the thank-you modal. */
  function CloseThankYou(f: Form): (f': Form)
    ensures !f'.showThankYou && f'.status == Idle
    ensures f'.data == f.data && f'.errors == f.errors
  {
    f.(showThankYou := false, status := Idle)
  }

  /** The submit button's `disabled` attribute. */
  function SubmitDisabled(s: Status): (disabled: bool)
    ensures !disabled <==> s in {Idle, Success, Error}
  {
    s == Submitting
  }

  const RedBorder: string := "border-red-500"
  const GreyBorder: string := "border-gray-800"

  /** The border class an input gets: red when its error entry is present
      and non-empty (JavaScript truthiness of `formErrors[field]`). */
  function BorderClass(errors: map<string, string>, field: string): (cls: string)
    ensures cls == RedBorder || cls == GreyBorder
    ensures cls == RedBorder <==> field in errors && errors[field] != ""
  {
    if field in errors && errors[field] != "" then RedBorder else GreyBorder
  }

  /** After a refused submission exactly the empty required fields are
      outlined in red; the optional fields never are. */
  lemma RefusedHighlightsEmptyRequired(f: Form, field: string)
    requires Blocked(f.data)
    ensures BorderClass(Submit(f).form.errors, field) == RedBorder
      <==> field in RequiredFields && Field(f.data, field) == ""
  {
  }

  /** A whitespace-only name passes validation but is sent as "". */
  lemma BlankNameSentEmpty(f: Form)
    requires f.data.name != "" && AllSpace(f.data.name)
    requires f.data.email != "" && f.data.service != ""
    ensures Submit(f).Sending?
    ensures Submit(f).payload[0] == ("name", "")
  {
    TrimEmptyIffAllSpace(f.data.name);
  }

  /** Every sent value is trimmed, and a sent value is non-empty only if the
      typed one has a non-space character. */
  lemma PayloadIsTrimmed(f: Form)
    requires Submit(f).Sending?
    ensures forall k :: 0 <= k < |Submit(f).payload| ==> Trim(Submit(f).payload[k].1) == Submit(f).payload[k].1
    ensures forall k :: 0 <= k < |Submit(f).payload| && Submit(f).payload[k].1 != "" ==>
      !AllSpace(Field(f.data, FieldNames[k]))
  {
    var p := Submit(f).payload;
    forall k | 0 <= k < |p|
      ensures Trim(p[k].1) == p[k].1
      ensures p[k].1 != "" ==> !AllSpace(Field(f.data, FieldNames[k]))
    {
      TrimIdempotent(Field(f.data, FieldNames[k]));
      TrimEmptyIffAllSpace(Field(f.data, FieldNames[k]));
    }
  }

  /** The whole successful cycle: idle, submitting (button disabled),
      success with the thank-you modal and a cleared form, then idle again
      after the modal closes. */
  lemma SuccessfulCycle(f: Form)
    requires f.status == Idle && !Blocked(f.data)
    ensures var s := Submit(f).form;
      && SubmitDisabled(s.status)
      && var done := Complete(s, true);
      && !SubmitDisabled(done.status) && done.showThankYou && done.data == EmptyData
      && CloseThankYou(done) == InitialForm.(errors := f.errors)
  {
  }

  /** A failed send keeps what the user typed, re-enables the button, and a
      retry sends the same payload again. */
  lemma FailedSendAllowsRetry(f: Form)
    requires !Blocked(f.data)
    ensures var failed := Complete(Submit(f).form, false);
      && failed.status == Error && failed.data == f.data
      && !SubmitDisabled(failed.status)
      && Submit(failed) == Sending(failed.(status := Submitting), Payload(f.data))
  {
  }

  /** Errors from a refused attempt are not cleared by a later accepted one:
      the map is only ever replaced by another refused attempt. */
  lemma AcceptedSubmitKeepsOldErrors(f: Form, sent: bool)
    requires !Blocked(f.data)
    ensures Complete(Submit(f).form, sent).errors == f.errors
  {
  }
}

=== FILE: engine.dfy ===
/** The mount / frame / resize / unmount life of the particle background
    (components/ParticlesBackground.tsx). The display-refresh scheduler is
    abstracted to one flag: whether a frame is pending. */
module Engine {
  import opened Particles

  /** Inert: the canvas or its 2-D context was missing, so the effect
      returned before seeding, scheduling or listening. Live: the effect ran;
      `framePending` and `listening` say whether a requested animation frame
      and the resize listener are still registered. `frames` counts the frames
      drawn so far. */
  datatype Engine =
    | Inert
    | Live(viewport: Viewport, tier: Tier, particles: seq<Particle>,
           framePending: bool, listening: bool, frames: nat)

  /** The animation is running: a frame is scheduled. */
  predicate Running(e: Engine)
  {
    e.Live? && e.framePending
  }

  /** What every reachable engine satisfies: the tier is one of the two,
      the particle count is the tier's, a frame is pending exactly while the
      resize listener is registered, and at least one frame has been drawn. */
  predicate Consistent(e: Engine)
  {
    e.Live? ==>
      && (e.tier == Compact || e.tier == Full)
      && |e.particles| == e.tier.count
      && (e.framePending <==> e.listening)
      && e.frames >= 1
  }

  /** Mounting the component: check canvas and context, measure the window,
      pick the tier, seed, draw the first frame synchronously (which requests
      the next one), then register the resize listener. */
  function Mount(hasCanvas: bool, hasContext: bool, vp: Viewport, rand: nat -> real): (e: Engine)
    requires UnitDraws(rand)
    ensures e.Inert? <==> !hasCanvas || !hasContext
    ensures e.Live? ==>
      && e.tier == SelectTier(vp.width)
      && e.viewport == vp
      && |e.particles| == e.tier.count
      && e.particles == MoveAll(Seed(e.tier.count, vp, rand), vp)
      && AllInside(e.particles, vp)
      && (forall k :: 0 <= k < |e.particles| ==>
            && -0.175 <= e.particles[k].vx < 0.175
            && -0.175 <= e.particles[k].vy < 0.175
            && 1.2 <= e.particles[k].size < 2.7)
      && Running(e) && e.listening
      && e.frames == 1
    ensures Consistent(e)
  {
    if !hasCanvas || !hasContext then Inert
    else
      var t := SelectTier(vp.width);
      var seeded := Seed(t.count, vp, rand);
      Live(vp, t, MoveAll(seeded, vp), true, true, 1)
  }

  /** The pending animation frame fires: the frame is drawn against the
      current viewport and requests exactly one successor. With no pending
      frame nothing happens. */
  function Tick(e: Engine): (e': Engine)
    ensures Running(e) ==>
      && Running(e')
      && e'.frames == e.frames + 1
      && e'.tier == e.tier && e'.viewport == e.viewport && e'.listening == e.listening
      && e'.particles == MoveAll(e.particles, e.viewport)
      && OnlyPositionsChanged(e.particles, e'.particles)
      && AllInside(e'.particles, e'.viewport)
    ensures !Running(e) ==> e' == e
  {
    if Running(e) then e.(particles := MoveAll(e.particles, e.viewport), frames := e.frames + 1)
    else e
  }

  /** The window's resize event: while the listener is registered, only the
      stored width and height change; the tier and the particles stay. */
  function Resize(e: Engine, width: nat, height: nat): (e': Engine)
    ensures e.Live? && e.listening ==> e' == e.(viewport := Viewport(width, height))
    ensures !(e.Live? && e.listening) ==> e' == e
  {
    if e.Live? && e.listening then e.(viewport := Viewport(width, height)) else e
  }

  /** The effect's cleanup: cancel the pending frame and remove the resize
      listener. An inert mount registered no cleanup. */
  function Unmount(e: Engine): (e': Engine)
    ensures e'.Live? <==> e.Live?
    ensures e.Live? ==> !e'.framePending && !e'.listening
    ensures e.Live? ==> && e'.viewport == e.viewport && e'.particles == e.particles
                        && e'.tier == e.tier && e'.frames == e.frames
  {
    if e.Live? then e.(framePending := false, listening := false) else e
  }

  /** n firings of the display-refresh callback. */
  function Ticks(e: Engine, n: nat): Engine
    decreases n
  {
    if n == 0 then e else Ticks(Tick(e), n - 1)
  }

  /** Every operation keeps an engine consistent. */
  lemma OperationsPreserveConsistency(e: Engine, width: nat, height: nat)
    requires Consistent(e)
    ensures Consistent(Tick(e))
    ensures Consistent(Resize(e, width, height))
    ensures Consistent(Unmount(e))
  {
  }

  /** Resizing never re-tiers or reseeds: the particle count and link
      threshold keep the values chosen from the width at mount, whatever the
      new width. */
  lemma {:induction false} ResizeKeepsMountTier(hasCanvas: bool, hasContext: bool, vp: Viewport,
                                                rand: nat -> real, widths: seq<nat>, heights: seq<nat>)
    requires UnitDraws(rand)
    requires hasCanvas && hasContext
    requires |widths| == |heights|
    ensures var e := Resizes(Mount(hasCanvas, hasContext, vp, rand), widths, heights);
      && e.Live?
      && e.tier == SelectTier(vp.width)
      && |e.particles| == SelectTier(vp.width).count
    decreases |widths|
  {
    if |widths| > 0 {
      ResizeKeepsMountTier(hasCanvas, hasContext, vp, rand, widths[..|widths| - 1], heights[..|heights| - 1]);
    }
  }

  /** A sequence of resize events, applied in order. */
  function Resizes(e: Engine, widths: seq<nat>, heights: seq<nat>): Engine
    requires |widths| == |heights|
    decreases |widths|
  {
    if |widths| == 0 then e
    else Resize(Resizes(e, widths[..|widths| - 1], heights[..|heights| - 1]),
                widths[|widths| - 1], heights[|heights| - 1])
  }

  /** After unmount no frame is ever drawn again, however many refresh
      signals arrive. */
  lemma {:induction false} NoFramesAfterUnmount(e: Engine, n: nat)
    ensures Ticks(Unmount(e), n) == Unmount(e)
  {
    if n > 0 {
      assert Tick(Unmount(e)) == Unmount(e);
      NoFramesAfterUnmount(e, n - 1);
    }
  }

  /** While mounted, every refresh signal draws one frame: n signals draw n
      frames, and the animation stays running. */
  lemma {:induction false} RunningDrawsEveryFrame(e: Engine, n: nat)
    requires Running(e)
    ensures Running(Ticks(e, n))
    ensures Ticks(e, n).frames == e.frames + n
    ensures Ticks(e, n).tier == e.tier
    ensures |Ticks(e, n).particles| == |e.particles|
    decreases n
  {
    if n > 0 {
      RunningDrawsEveryFrame(Tick(e), n - 1);
    }
  }

  /** Unmounting twice is the same as unmounting once. */
  lemma UnmountIdempotent(e: Engine)
    ensures Unmount(Unmount(e)) == Unmount(e)
  {
  }
}

=== FILE: frame.dfy ===
/** One animation frame of the particle network: the loop that moves
    particle i and then links it to every later particle j, and the linear
    opacity falloff of a link (components/ParticlesBackground.tsx). */
module Frame {
  import opened Wrappers
  import opened Particles

  /** Largest link opacity, reached at distance 0. */
  const MaxAlpha: real := 0.35

  /** One evaluated pair: indices, the two particles as the loop saw them,
      the distance reported by the square root, and the opacity of the line
      drawn (None when no line is drawn). */
  datatype Check = Check(i: nat, j: nat, a: Particle, b: Particle, dist: real, alpha: Option<real>)

  /** `root` behaves as a square root on non-negative reals. */
  ghost predicate IsRoot(root: real -> real)
  {
    forall s :: 0.0 <= s ==> 0.0 <= root(s) && root(s) * root(s) == s
  }

  /** Squared Euclidean distance between two particles. */
  function SquaredDistance(a: Particle, b: Particle): (s: real)
    ensures s >= 0.0
  {
    (a.x - b.x) * (a.x - b.x) + (a.y - b.y) * (a.y - b.y)
  }

  /** Opacity of a line between particles at distance d. */
  function Alpha(d: real, threshold: real): (alpha: real)
    requires threshold > 0.0
    ensures alpha * threshold == MaxAlpha * (threshold - d)
  {
    (1.0 - d / threshold) * MaxAlpha
  }

  /** The body of the inner loop for the pair (i, j). */
  function Evaluate(i: nat, j: nat, a: Particle, b: Particle, threshold: real, root: real -> real): (c: Check)
    requires threshold > 0.0
    ensures c.i == i && c.j == j && c.a == a && c.b == b
    ensures c.dist == root(SquaredDistance(a, b))
    ensures c.alpha.Some? <==> c.dist < threshold
    ensures c.alpha.Some? ==> c.alpha.value == Alpha(c.dist, threshold)
  {
    var d := root(SquaredDistance(a, b));
    Check(i, j, a, b, d, if d < threshold then Some(Alpha(d, threshold)) else None)
  }

  /** For t > 0, a / t < 1 exactly when a < t. */
  lemma QuotientBelowOne(a: real, t: real)
    requires t > 0.0
    ensures a / t < 1.0 <==> a < t
    ensures 0.0 <= a ==> 0.0 <= a / t
  {
    var q := a / t;
    assert q * t == a;
    if q < 1.0 {
      assert (1.0 - q) * t > 0.0;
    } else {
      assert (q - 1.0) * t >= 0.0;
    }
  }

  /** Within the threshold the opacity is positive and at most MaxAlpha;
      at the threshold it is exactly 0. */
  lemma AlphaRange(d: real, threshold: real)
    requires threshold > 0.0
    ensures 0.0 <= d < threshold ==> 0.0 < Alpha(d, threshold) <= MaxAlpha
    ensures d == 0.0 ==> Alpha(d, threshold) == MaxAlpha
    ensures Alpha(threshold, threshold) == 0.0
  {
    QuotientBelowOne(d, threshold);
  }

  /** The falloff is strictly decreasing: a nearer pair gets a more opaque line. */
  lemma AlphaDecreasing(d1: real, d2: real, threshold: real)
    requires threshold > 0.0
    requires d1 < d2
    ensures Alpha(d1, threshold) > Alpha(d2, threshold)
  {
    assert d2 / threshold - d1 / threshold == (d2 - d1) / threshold;
    QuotientBelowOne(d2 - d1, threshold);
    assert (d2 - d1) / threshold > 0.0 by {
      assert ((d2 - d1) / threshold) * threshold == d2 - d1;
    }
  }

  lemma ProductBelow(d: real, t: real)
    requires 0.0 <= d < t
    ensures d * d < t * t
  {
    assert d * (t - d) >= 0.0;
    assert t * (t - d) > 0.0;
  }

  lemma ProductAtLeast(d: real, t: real)
    requires 0.0 < t <= d
    ensures t * t <= d * d
  {
    assert t * t <= t * d;
    assert t * d <= d * d;
  }

  /** For a non-negative distance d, d < t exactly when d*d < t*t. */
  lemma BelowIffSquareBelow(d: real, t: real)
    requires d >= 0.0 && t > 0.0
    ensures d < t <==> d * d < t * t
  {
    if d < t {
      ProductBelow(d, t);
    } else {
      ProductAtLeast(d, t);
    }
  }

  /** A line joins the pair exactly when the squared distance is below the
      squared threshold, and its opacity is then in (0, MaxAlpha]. */
  lemma LinkRule(i: nat, j: nat, a: Particle, b: Particle, threshold: real, root: real -> real)
    requires threshold > 0.0
    requires IsRoot(root)
    ensures var c := Evaluate(i, j, a, b, threshold, root);
      && c.dist * c.dist == SquaredDistance(a, b)
      && (c.alpha.Some? <==> SquaredDistance(a, b) < threshold * threshold)
      && (c.alpha.Some? ==> 0.0 < c.alpha.value <= MaxAlpha)
  {
    var d := root(SquaredDistance(a, b));
    BelowIffSquareBelow(d, threshold);
    AlphaRange(d, threshold);
  }

  /** Number of pairs that precede row i when n particles are enumerated
      as (0,1), (0,2), ..., (0,n-1), (1,2), ...: row r holds n-1-r pairs. */
  function RowStart(n: nat, i: nat): nat
    requires i <= n
  {
    if i == 0 then 0 else RowStart(n, i - 1) + (n - i)
  }

  /** Position of the pair (i, j) in that enumeration. */
  function PairIndex(n: nat, i: nat, j: nat): nat
    requires i < j < n
  {
    RowStart(n, i) + (j - i - 1)
  }

  lemma {:induction false} RowStartClosedForm(n: nat, i: nat)
    requires i <= n
    ensures 2 * RowStart(n, i) == i * (2 * n - 1 - i)
  {
    if i > 0 {
      RowStartClosedForm(n, i - 1);
    }
  }

  /** Some evaluation in `checks` is of the pair (i, j). */
  ghost predicate Evaluated(checks: seq<Check>, i: nat, j: nat)
  {
    exists k :: 0 <= k < |checks| && checks[k].i == i && checks[k].j == j
  }

  /** The evaluations of one frame list each unordered pair i < j of the n
      particles exactly once, n(n-1)/2 in all. */
  ghost predicate EachPairOnce(checks: seq<Check>, n: nat)
  {
    && 2 * |checks| == n * (n - 1)
    && (forall k :: 0 <= k < |checks| ==> checks[k].i < checks[k].j < n)
    && (forall i, j :: 0 <= i < j < n ==> Evaluated(checks, i, j))
    && (forall k, k' :: 0 <= k < k' < |checks| ==>
          checks[k].i != checks[k'].i || checks[k].j != checks[k'].j)
  }

  /** The k-th evaluation of a frame over `ps` is the one for its own pair
      (i, j), in row order, computed from particle i after its move and
      particle j before its move. */
  ghost predicate InPlace(c: Check, k: nat, ps: seq<Particle>, vp: Viewport, threshold: real, root: real -> real)
    requires threshold > 0.0
  {
    && c.i < c.j < |ps|
    && k == PairIndex(|ps|, c.i, c.j)
    && c == Evaluate(c.i, c.j, Move(ps[c.i], vp), ps[c.j], threshold, root)
  }

  /** The pair (a, b) of n particles has already been evaluated, at its own position. */
  ghost predicate Listed(checks: seq<Check>, n: nat, a: nat, b: nat)
    requires a < b < n
  {
    PairIndex(n, a, b) < |checks| && checks[PairIndex(n, a, b)].i == a && checks[PairIndex(n, a, b)].j == b
  }

  /** One call of the frame loop over `ps`. Particle i is moved and wrapped in
      place, then compared with every particle j > i; so each comparison sees
      particle i already moved this frame and particle j not yet moved. */
  method DrawFrame(ps: seq<Particle>, vp: Viewport, threshold: real, root: real -> real)
    returns (next: seq<Particle>, checks: seq<Check>)
    requires threshold > 0.0
    ensures next == MoveAll(ps, vp)
    ensures EachPairOnce(checks, |ps|)
    ensures forall k :: 0 <= k < |checks| ==>
      && checks[k].i < checks[k].j < |ps|
      && k == PairIndex(|ps|, checks[k].i, checks[k].j)
      && checks[k] == Evaluate(checks[k].i, checks[k].j, Move(ps[checks[k].i], vp), ps[checks[k].j], threshold, root)
  {
    var n := |ps|;
    next := ps;
    checks := [];
    var i := 0;
    while i < n
      invariant 0 <= i <= n
      invariant |next| == n
      invariant forall k :: 0 <= k < i ==> next[k] == Move(ps[k], vp)
      invariant forall k :: i <= k < n ==> next[k] == ps[k]
      invariant |checks| == RowStart(n, i)
      invariant forall k :: 0 <= k < |checks| ==> InPlace(checks[k], k, ps, vp, threshold, root)
      invariant forall a, b :: 0 <= a < i && a < b < n ==> Listed(checks, n, a, b)
    {
      next := next[i := Move(next[i], vp)];
      var j := i + 1;
      while j < n
        invariant i + 1 <= j <= n
        invariant |checks| == RowStart(n, i) + (j - i - 1)
        invariant forall k :: 0 <= k < |checks| ==> InPlace(checks[k], k, ps, vp, threshold, root)
        invariant forall a, b :: 0 <= a < i && a < b < n ==> Listed(checks, n, a, b)
        invariant forall b :: i < b < j ==> Listed(checks, n, i, b)
      {
        ghost var before := checks;
        checks := checks + [Evaluate(i, j, next[i], next[j], threshold, root)];
        forall a, b | 0 <= a < i && a < b < n
          ensures Listed(checks, n, a, b)
        {
          assert Listed(before, n, a, b);
        }
        forall b | i < b < j + 1
          ensures Listed(checks, n, i, b)
        {
          if b < j {
            assert Listed(before, n, i, b);
          }
        }
        j := j + 1;
      }
      i := i + 1;
    }
    RowStartClosedForm(n, n);
    forall a, b | 0 <= a < b < n
      ensures Evaluated(checks, a, b)
    {
      assert Listed(checks, n, a, b);
    }
  }
}

=== FILE: particles.dfy ===
/** Particle records and the per-particle rules of the particle-network
    background: density tier, seeding from random draws, and the
    move-then-wrap update (components/ParticlesBackground.tsx). */
module Particles {

  /** The window's inner size in CSS pixels, an integer in the browser. */
  datatype Viewport = Viewport(width: nat, height: nat)

  /** One dot of the network: position, per-frame velocity and dot radius. */
  datatype Particle = Particle(x: real, y: real, vx: real, vy: real, size: real)

  /** The density tier fixed at mount: how many particles, and how close two
      particles must be for a line to join them. */
  datatype Tier = Tier(count: nat, threshold: real)

  /** Widths below this many pixels are treated as mobile. */
  const Breakpoint: nat := 768

  const Compact: Tier := Tier(35, 140.0)
  const Full: Tier := Tier(85, 190.0)

  /** The tier for the width measured at mount. */
  function SelectTier(width: nat): (t: Tier)
    ensures width < Breakpoint <==> t == Compact
    ensures width >= Breakpoint <==> t == Full
    ensures t.threshold > 0.0
  {
    if width < Breakpoint then Compact else Full
  }

  /** `Math.random()` as a stream of draws: the k-th call returns rand(k),
      and every draw lies in [0, 1). */
  ghost predicate UnitDraws(rand: nat -> real)
  {
    forall k: nat :: 0.0 <= rand(k) < 1.0
  }

  /** The ranges a freshly seeded particle lies in. A zero-sized axis pins
      the coordinate to 0; otherwise the position is inside the half-open
      box. */
  predicate Newborn(p: Particle, vp: Viewport)
  {
    && 0.0 <= p.x <= vp.width as real && (vp.width > 0 ==> p.x < vp.width as real)
    && 0.0 <= p.y <= vp.height as real && (vp.height > 0 ==> p.y < vp.height as real)
    && -0.175 <= p.vx < 0.175
    && -0.175 <= p.vy < 0.175
    && 1.2 <= p.size < 2.7
  }

  /** A draw r in [0, 1) scaled to an axis of length `bound`. */
  function Scale(r: real, bound: nat): (v: real)
    requires 0.0 <= r < 1.0
    ensures 0.0 <= v <= bound as real
    ensures bound > 0 ==> v < bound as real
  {
    var b := bound as real;
    assert (1.0 - r) * b == b - r * b;
    assert b > 0.0 ==> (1.0 - r) * b > 0.0;
    r * b
  }

  /** The i-th particle of the seeding loop; it consumes draws 5i .. 5i+4
      in the order x, y, vx, vy, size. */
  function Spawn(rand: nat -> real, i: nat, vp: Viewport): (p: Particle)
    requires UnitDraws(rand)
    ensures Newborn(p, vp)
  {
    var k := 5 * i;
    Particle(Scale(rand(k), vp.width),
             Scale(rand(k + 1), vp.height),
             (rand(k + 2) - 0.5) * 0.35,
             (rand(k + 3) - 0.5) * 0.35,
             rand(k + 4) * 1.5 + 1.2)
  }

  /** The seeding loop: `count` particles, each from its own five draws. */
  function Seed(count: nat, vp: Viewport, rand: nat -> real): (ps: seq<Particle>)
    requires UnitDraws(rand)
    ensures |ps| == count
    ensures forall i :: 0 <= i < |ps| ==> Newborn(ps[i], vp)
  {
    seq(count, i requires 0 <= i < count => Spawn(rand, i, vp))
  }

  /** The edge rule on one axis, applied after the velocity step: a
      coordinate below 0 jumps to `bound`, one above `bound` jumps to 0.
      The two tests run in this order, so the result lies in the CLOSED
      interval [0, bound]. */
  function Wrap(c: real, bound: nat): (r: real)
    ensures 0.0 <= r <= bound as real
    ensures c < 0.0 ==> r == bound as real
    ensures c > bound as real ==> r == 0.0
    ensures 0.0 <= c <= bound as real ==> r == c
  {
    var c' := if c < 0.0 then bound as real else c;
    if c' > bound as real then 0.0 else c'
  }

  /** True when p lies in the closed box [0, width] x [0, height]. */
  predicate Inside(p: Particle, vp: Viewport)
  {
    0.0 <= p.x <= vp.width as real && 0.0 <= p.y <= vp.height as real
  }

  /** One particle's update in a frame: add the velocity, then wrap. */
  function Move(p: Particle, vp: Viewport): (q: Particle)
    ensures Inside(q, vp)
    ensures q.vx == p.vx && q.vy == p.vy && q.size == p.size
    ensures 0.0 <= p.x + p.vx <= vp.width as real ==> q.x == p.x + p.vx
    ensures 0.0 <= p.y + p.vy <= vp.height as real ==> q.y == p.y + p.vy
    ensures p.x + p.vx < 0.0 ==> q.x == vp.width as real
    ensures p.x + p.vx > vp.width as real ==> q.x == 0.0
    ensures p.y + p.vy < 0.0 ==> q.y == vp.height as real
    ensures p.y + p.vy > vp.height as real ==> q.y == 0.0
  {
    p.(x := Wrap(p.x + p.vx, vp.width), y := Wrap(p.y + p.vy, vp.height))
  }

  /** `after` is `before` with only positions changed: same length, same
      order, same velocities and sizes. */
  predicate OnlyPositionsChanged(before: seq<Particle>, after: seq<Particle>)
  {
    && |after| == |before|
    && forall k :: 0 <= k < |before| ==>
         after[k].vx == before[k].vx && after[k].vy == before[k].vy && after[k].size == before[k].size
  }

  /** Every particle of ps lies in the closed viewport box. */
  predicate AllInside(ps: seq<Particle>, vp: Viewport)
  {
    forall k :: 0 <= k < |ps| ==> Inside(ps[k], vp)
  }

  /** The particle state after one frame: every particle moved once. */
  function MoveAll(ps: seq<Particle>, vp: Viewport): (qs: seq<Particle>)
    ensures OnlyPositionsChanged(ps, qs)
    ensures forall k :: 0 <= k < |ps| ==> qs[k] == Move(ps[k], vp)
    ensures AllInside(qs, vp)
  {
    seq(|ps|, k requires 0 <= k < |ps| => Move(ps[k], vp))
  }
}

=== FILE: wrappers.dfy ===
/** A value that may be missing: JavaScript's `undefined` for an absent
    request member, or "no line" for a pair that is too far apart. */
module Wrappers {

  datatype Option<+T> = None | Some(value: T)
}
